=== FILE: README.md ===
# BOM-Link codec

A Dafny model of the BOM-Link codec of the CycloneDX Go library (`link.go`).
A BOM Link names one version of a BOM document by its serial number (a UUID)
and version, optionally narrowed to one component or service inside it by its
`bom-ref`:

    urn:cdx:<serial-number>/<version>[#<escaped-bom-ref>]

The model covers the four operations of the codec:

- `Link.NewBOMLink` builds a link from a BOM (its serial number and version)
  and an optional element, a component or service passed by value or by
  pointer.
- `Link.String` renders a link, with the reference query-escaped.
- `Grammar.IsBOMLink` recognises the string form. It is a hand-written
  recogniser for the same language as the anchored regular expression
  `bomLinkRegex`. `Grammar.FindSubmatch` returns the three capture groups.
- `Link.ParseBOMLink` parses the string form back.

It also models the library routines the codec relies on:

- `uuid.UUID.String` and `uuid.Parse` (module `Uuid`), following section 3 of
  RFC 4122.
- `%d` and `strconv.Atoi` for a 64-bit `int` (module `Decimal`).
- `url.QueryEscape` and `url.QueryUnescape` (module `QueryEscape`), as
  described in sections 2.1 and 2.3 of RFC 3986, with space written as `+`.

Strings are byte sequences. `Text.Byte` is a character with code below 256.
Go's `int` is a 64-bit integer (`Decimal.GoInt`). Errors are a closed
enumeration `Link.Error`, with one kind for each distinct error the code
returns. The element argument, an `interface{}` in Go, is the closed sum
`Link.Element`. It has the four accepted dynamic types plus `OtherType`.

Some behaviours of the code are easy to miss:

- Parsing does not require version >= 1. `…/0` parses to version 0, and
  leading zeros are accepted (`LinkProperties.VersionZero`,
  `LinkProperties.LeadingZeros`).
- "Recognised" does not imply "parses". A malformed escape in the reference
  fails to parse, and so does a version above 2^63 - 1. Only the converse
  holds (`LinkProperties.ParseSucceeds`, `LinkProperties.MatchWithBadEscape`,
  `LinkProperties.MatchWithOverflowingVersion`).
- The invalid-serial-number branch of `ParseBOMLink` can never be taken. A
  serial number the grammar lets through always parses as a UUID.
- `FindStringSubmatch` returns four entries on every match, since the unmatched
  optional group is the empty string. So the `len(matches) == 4` branch is
  always taken, and the branch at link.go:112-115 is dead. `QueryUnescape("")`
  is `""`, so a link without a fragment still gets an empty reference.
  `Link.ParseBOMLink` models this path: it always unescapes the (possibly
  empty) reference group.

## Model

| member | source | states |
|---|---|---|
| `Link.NewBOMLink` | link.go:22-67 | The checks run in this order: a nil BOM, an empty serial number, a version below 1, a serial number that is not a UUID, an element that is neither a component nor a service, an empty bom-ref. On success the version is the BOM's version (at least 1) and the serial number is the parsed UUID. The reference is empty without an element and is the element's non-empty bom-ref with one. The result is a link exactly when the BOM is present, its version is at least 1, its serial number is a UUID, and any element given is a component or service with a non-empty bom-ref. |
| `Link.String` | link.go:70-76 | The rendering starts with `urn:cdx:`. It contains `#` exactly when the reference is non-empty. For every non-negative version it matches the link grammar. |
| `Link.ParseBOMLink` | link.go:84-116 | A successful parse implies the string matches the grammar. `NoMatch` is returned exactly for non-matching strings. The invalid-serial error never occurs. The parsed version is non-negative. The parsed reference is empty exactly when the string has no `#`. |
| `Link.RenderedLink` | link.go:70-81 | A rendered link with a non-negative version has well-formed groups, and the match returns exactly those groups. |
| `Grammar.IsBOMLinkLanguage` | link.go:79-81 | A string is recognised exactly when it is `urn:cdx:`, a lower-case hyphenated UUID, `/`, one or more digits and an optional `#` with one or more reference bytes, put together. This is the language of the regular expression at link.go:12. |
| `Grammar.FindSubmatch` | link.go:12 | The groups are found exactly when the string matches. Every group then holds what its sub-pattern allows, and putting the groups back together gives the string. |
| `Grammar.ComposeMatches` | link.go:12 | Well-formed groups put together give a matching string. Its groups are exactly the ones put in, so the decomposition is unique. |
| `LinkProperties.RoundTrip` | link.go:70-116 | Rendering a link with a non-negative version and parsing it gives back the same serial number, version and reference. |
| `LinkProperties.NewLinkRoundTrip` | link.go:22-116 | Every link `NewBOMLink` builds survives rendering and parsing unchanged. |
| `LinkProperties.ElementLinkExtendsDocumentLink` | link.go:70-76 | An element link is the document link, then `#`, then the escaped reference. The escaped reference uses only bytes of `[A-Za-z0-9-._~%+]` and unescapes to the reference. |
| `LinkProperties.ParseSucceeds` | link.go:85-103 | Parsing succeeds exactly when three conditions hold: the string matches, the version digits denote at most 2^63 - 1, and every `%` in the reference starts an escape. |
| `LinkProperties.ParseErrors` | link.go:94-103 | A matching string gets `InvalidVersion` exactly when its version is above 2^63 - 1. It gets `InvalidReference` exactly when its version fits and its reference has a `%` that does not start an escape. The version is checked first. |
| `LinkProperties.ParsedFields` | link.go:90-110 | After a successful parse, the canonical text of the serial number is the serial group. The version is the decimal value of the version group. The reference is the unescaped reference group. |
| `LinkProperties.MatchWithBadEscape` | link.go:99-103 | `urn:cdx:<uuid>/1#%zz` matches the grammar but fails to parse with `InvalidReference`. |
| `LinkProperties.MatchWithOverflowingVersion` | link.go:94-97 | `urn:cdx:<uuid>/<digits>`, with canonical digits whose value is above 2^63 - 1, matches the grammar but fails to parse with `InvalidVersion`. |
| `LinkProperties.LeadingZeros` | link.go:94-97 | `…/007` parses to version 7, which renders as `…/7`. |
| `LinkProperties.VersionZero` | link.go:94-97 | `…/0` parses to version 0, although `NewBOMLink` refuses version 0. |
| `Uuid.Format` | link.go:72 | The canonical UUID text is 36 bytes: lower-case hexadecimal digits in groups of 8-4-4-4-12 with hyphens between them. Its digits are the octets in order. |
| `Uuid.Parse` | link.go:33 | A serial number parses exactly when it is the 36-byte hyphenated form, with hexadecimal digits of either case. |
| `Uuid.ParseAnyCase` | link.go:33 | A serial number with upper-case digits parses to the same UUID as its lower-case form, and that form is the UUID's canonical text. |
| `Uuid.ParseFormat` | link.go:90 | Parsing the canonical text of a UUID gives back the UUID. |
| `Uuid.FormatParse` | link.go:90-93 | Every lower-case hyphenated text parses, and it is the canonical text of the UUID it parses to. |
| `Uuid.SameDigitsSameText` | link.go:72 | Two hyphenated texts with the same digits are equal. |
| `Decimal.FormatNat` | link.go:72 | A non-negative version renders as at least one decimal digit, whose value is the version. It has no leading zero unless it is `0`. |
| `Decimal.FormatInt` | link.go:72 | `%d` renders a non-negative version as its decimal digits with no leading zero (`0` alone for zero), and a negative one as `-` followed by the digits of its magnitude, whose first digit is never `0`. |
| `Decimal.FormatNatCanonical` | link.go:72 | A digit string without a leading zero is the rendering of its own value. |
| `Decimal.Atoi` | link.go:94 | A successful `Atoi` read an optional sign and then one or more digits. It yields their decimal value, negated after `-`. |
| `Decimal.AtoiDigits` | link.go:94-97 | On a non-empty digit string, `Atoi` succeeds exactly when the value is at most 2^63 - 1, and then yields that value. Leading zeros are accepted. |
| `Decimal.AtoiFormatInt` | link.go:72 | `Atoi` reads back the `%d` rendering of every 64-bit `int`, including negative ones. |
| `Decimal.ParseUintLoopValue` | link.go:94 | The digit loop, which stops on overflow, succeeds exactly when the value of the whole digit string fits in 64 unsigned bits. |
| `QueryEscape.EscapeByte` | link.go:75 | An unreserved byte is kept, a space becomes `+`, and every other byte becomes `%` followed by two upper-case hexadecimal digits whose value is the byte. |
| `QueryEscape.EscapeSingle` | link.go:75 | Escaping a one-byte reference gives that byte's escaped form. |
| `QueryEscape.EscapeAppend` | link.go:75 | Escaping works byte by byte: the escape of a concatenation is the concatenation of the escapes. |
| `QueryEscape.Escape` | link.go:75 | The escaped reference uses only unreserved bytes, `%` and `+`. It is between one and three times as long as the reference. |
| `QueryEscape.Unescape` | link.go:100 | An unescaped result is never longer than its input, and it is empty exactly when the input is empty. |
| `QueryEscape.UnescapeEscape` | link.go:75-100 | Unescaping undoes escaping for every reference. |
| `QueryEscape.UnescapeUnits` | link.go:100 | A byte other than `%` unescapes to itself, or to a space when it is `+`; `%` and two hexadecimal digits of either case unescape to the byte they spell. |
| `QueryEscape.UnescapeAppendSome` | link.go:100 | When two strings unescape, their concatenation unescapes to the concatenation of their results. |
| `QueryEscape.UnescapeAppend` | link.go:100 | Two well-escaped strings unescape, and their concatenation unescapes to the concatenation of their results. |
| `QueryEscape.UnescapeSucceeds` | link.go:100-103 | Unescaping fails exactly on input containing a `%` that is not followed by two hexadecimal digits. |
| `QueryEscape.EscapeIdentity` | link.go:75 | Escaping leaves a reference unchanged exactly when all its bytes are unreserved. |
| `LinkScenarios.DocumentLink` | link.go:38-43 | A link to version 1 of a BOM with a lower-case serial number renders as `urn:cdx:<serial>/1`. |
| `LinkScenarios.ComponentLink` | link.go:45-75 | A link to a component, with a lower-case serial number and a bom-ref made of unreserved bytes such as `componentA`, renders as `urn:cdx:<serial>/2#<bom-ref>`. |
| `LinkScenarios.EscapedReference` | link.go:53-75 | A service passed by pointer with bom-ref `a b#` renders its reference as `a+b%23`. |
| `LinkScenarios.ParseDocumentLink` | link.go:84-116 | `urn:cdx:<serial>/1` parses to version 1 with an empty reference. |
| `LinkScenarios.ParseNotUuid` | link.go:85-88 | `urn:cdx:not-a-uuid/1` fails the grammar. |
| `LinkScenarios.NotALink` | link.go:79-81 | `not a link` is not recognised. |
| `LinkScenarios.RefusedElements` | link.go:55-60 | An element of another type is refused, and so is a service without a bom-ref. |
| `LinkScenarios.SerialIsLowerHex` | link.go:12 | The example serial number `3e671687-395b-41f5-a30f-a58921a69b79` matches the serial-number sub-pattern. |

## Left out

- The regular-expression engine. `Grammar.IsBOMLink` states the same language
  directly, and `Grammar.FindSubmatch` gives the groups as a record, not as a
  slice. The `len(matches)` test at link.go:86 becomes the distinction
  between a match and no match.
- `Uuid.Parse`: accepts only the 36-byte hyphenated form. `uuid.Parse` also
  accepts the `urn:uuid:` prefix, braces and the 32-digit form without
  hyphens. This matters only for the serial number given to `NewBOMLink`,
  because the link grammar admits only the lower-case hyphenated form.
- Error message text and `%w` wrapping. Errors are kinds without a message.
  `Decimal.Atoi` does not tell a syntax error from a range error, because
  `ParseBOMLink` reports both as an invalid version.
- A typed nil pointer (`(*Component)(nil)`) passed as the element. It passes
  the nil test and then panics when its field is read. That is a runtime
  failure, not a result of `NewBOMLink`.
- Every field of the BOM, the component and the service other than the serial
  number, the version and the bom-ref.
- UTF-8 and rune semantics. Strings are sequences of bytes.
- Platforms with a 32-bit `int`. The version range is that of a 64-bit `int`.

=== FILE: decimal.dfy ===
/** Decimal integers: Go's `%d` rendering of an `int` and `strconv.Atoi`, for a
    64-bit `int`. */
module Decimal {
  import opened Wrappers
  import opened Text

  const MaxInt: int := 0x7fff_ffff_ffff_ffff
  const MaxUint: int := 0xffff_ffff_ffff_ffff

  /** Go's `int` on a 64-bit platform. */
  type GoInt = x: int | -0x8000_0000_0000_0000 <= x <= 0x7fff_ffff_ffff_ffff

  predicate AllDigits(d: Bytes) {
    forall i :: 0 <= i < |d| ==> IsDigit(d[i])
  }

  function DigitValue(c: Byte): (v: nat)
    requires IsDigit(c)
    ensures v < 10
  {
    c as int - '0' as int
  }

  /** The number a string of decimal digits denotes, most significant digit
      first; leading zeros add nothing. */
  function Value(d: Bytes): (v: nat)
    requires AllDigits(d)
    decreases |d|
  {
    if d == [] then 0 else 10 * Value(d[..|d| - 1]) + DigitValue(d[|d| - 1])
  }

  /** Go's rendering of a non-negative number: decimal digits, no leading
      zero. */
  function FormatNat(n: nat): (d: Bytes)
    ensures |d| >= 1 && AllDigits(d)
    ensures Value(d) == n
    ensures d[0] == '0' ==> d == "0"
    decreases n
  {
    if n < 10 then [DecimalDigit(n)]
    else
      var front := FormatNat(n / 10);
      var d := front + [DecimalDigit(n % 10)];
      assert d[..|d| - 1] == front;
      d
  }

  /** Go's `%d` rendering of an `int`: a minus sign before negative numbers. */
  function FormatInt(v: int): (d: Bytes)
    ensures v >= 0 ==> AllDigits(d) && |d| >= 1 && Value(d) == v
    ensures v < 0 ==> |d| >= 2 && d[0] == '-' && AllDigits(d[1..]) && Value(d[1..]) == -v
    ensures v >= 0 ==> (d[0] == '0' ==> d == "0")
    ensures v < 0 ==> d[1] != '0'
  {
    if v < 0 then "-" + FormatNat(-v) else FormatNat(v)
  }

  /** The digit loop of `strconv.ParseUint` in base 10: `acc` is the value of
      the digits already read; the loop stops on a non-digit and on any step
      that would leave the 64-bit unsigned range. */
  function ParseUintLoop(d: Bytes, acc: nat): (r: Option<nat>)
    decreases |d|
  {
    if d == [] then Some(acc)
    else if !IsDigit(d[0]) then None
    else if acc * 10 + DigitValue(d[0]) > MaxUint then None
    else ParseUintLoop(d[1..], acc * 10 + DigitValue(d[0]))
  }

  /** `strconv.ParseUint(s, 10, 64)`: at least one digit, and nothing else. */
  function ParseUint(d: Bytes): (r: Option<nat>) {
    if d == [] then None else ParseUintLoop(d, 0)
  }

  /** The digits of a decimal numeral: what follows an optional sign. */
  function Magnitude(s: Bytes): (d: Bytes)
    requires s != []
    ensures |d| >= |s| - 1
  {
    if s[0] == '+' || s[0] == '-' then s[1..] else s
  }

  /** `strconv.Atoi` for a 64-bit `int`: an optional sign, then decimal digits,
      and the value must fit. Every failure is `None`. A success reads one or
      more digits after the sign and yields their value, negated after `-`. */
  function Atoi(s: Bytes): (r: Option<GoInt>)
    ensures r.Some? ==>
              && s != [] && |Magnitude(s)| >= 1 && AllDigits(Magnitude(s))
              && r.value as int == (if s[0] == '-' then 0 - Value(Magnitude(s)) as int else Value(Magnitude(s)))
  {
    if s == [] then None
    else
      var neg := s[0] == '-';
      var digits := Magnitude(s);
      match ParseUint(digits)
      case None => None
      case Some(u) =>
        ParseUintLoopDigits(digits, 0);
        assert [] + digits == digits;
        ParseUintLoopValue([], digits);
        if !neg && u <= MaxInt then Some(u)
        else if neg && u <= MaxInt + 1 then Some(0 - (u as int))
        else None
  }

  /** The ParseUint loop only succeeds on digits. */
  lemma {:induction false} ParseUintLoopDigits(d: Bytes, acc: nat)
    ensures ParseUintLoop(d, acc).Some? ==> AllDigits(d)
    decreases |d|
  {
    if d != [] && IsDigit(d[0]) && acc * 10 + DigitValue(d[0]) <= MaxUint {
      ParseUintLoopDigits(d[1..], acc * 10 + DigitValue(d[0]));
      assert forall i :: 1 <= i < |d| ==> d[i] == d[1..][i - 1];
    }
  }

  /** Appending digits never makes the value smaller. */
  lemma {:induction false} ValueGrows(x: Bytes, y: Bytes)
    requires AllDigits(x) && AllDigits(y)
    ensures AllDigits(x + y) && Value(x) <= Value(x + y)
    decreases |y|
  {
    assert AllDigits(x + y);
    if y != [] {
      var y' := y[..|y| - 1];
      assert (x + y)[..|x + y| - 1] == x + y';
      ValueGrows(x, y');
    } else {
      assert x + y == x;
    }
  }

  /** The ParseUint loop, started with the value of the digits `p` already
      read, succeeds on the remaining digits `d` exactly when the value of the
      whole string fits in 64 unsigned bits, and then yields that value. */
  lemma {:induction false} ParseUintLoopValue(p: Bytes, d: Bytes)
    requires AllDigits(p) && AllDigits(d) && Value(p) <= MaxUint
    ensures AllDigits(p + d)
    ensures ParseUintLoop(d, Value(p)) ==
            (if Value(p + d) <= MaxUint then Some(Value(p + d)) else None)
    decreases |d|
  {
    assert AllDigits(p + d);
    if d == [] {
      assert p + d == p;
    } else {
      var p' := p + [d[0]];
      assert p'[..|p'| - 1] == p;
      assert p' + d[1..] == p + d;
      if Value(p') > MaxUint {
        ValueGrows(p', d[1..]);
      } else {
        ParseUintLoopValue(p', d[1..]);
      }
    }
  }

  /** On a non-empty string of digits, Atoi succeeds exactly when the value
      fits in a 64-bit `int`, and yields that value; leading zeros are
      accepted. */
  lemma AtoiDigits(d: Bytes)
    requires |d| >= 1 && AllDigits(d)
    ensures Atoi(d).Some? <==> Value(d) <= MaxInt
    ensures Atoi(d).Some? ==> Atoi(d).value == Value(d)
  {
    assert Magnitude(d) == d;
    assert ParseUint(d) == ParseUintLoop(d, 0);
    assert [] + d == d;
    ParseUintLoopValue([], d);
  }

  /** After a minus sign, Atoi accepts digits whose value is at most 2^63
      and yields the negated value. */
  lemma AtoiNegative(d: Bytes)
    requires |d| >= 1 && AllDigits(d)
    ensures Atoi("-" + d).Some? <==> Value(d) <= MaxInt + 1
    ensures Atoi("-" + d).Some? ==> Atoi("-" + d).value as int == 0 - Value(d)
  {
    assert Magnitude("-" + d) == d;
    assert ParseUint(d) == ParseUintLoop(d, 0);
    assert [] + d == d;
    ParseUintLoopValue([], d);
  }

  /** Atoi inverts the `%d` rendering of every 64-bit `int`. */
  lemma AtoiFormatInt(v: GoInt)
    ensures Atoi(FormatInt(v)) == Some(v)
  {
    if v >= 0 {
      AtoiDigits(FormatNat(v));
    } else {
      var n: nat := 0 - v as int;
      AtoiNegative(FormatNat(n));
    }
  }

  /** Rendering a number and reading it back gives the number, so the decimal
      form of a number is its only form without leading zeros. */
  lemma {:induction false} FormatNatCanonical(d: Bytes)
    requires |d| >= 1 && AllDigits(d) && (d[0] == '0' ==> d == "0")
    ensures FormatNat(Value(d)) == d
    decreases |d|
  {
    var n := Value(d);
    if |d| == 1 {
      assert d[..0] == [];
    } else {
      var front := d[..|d| - 1];
      assert [d[0]] + front[1..] == front;
      assert [d[0]][..0] == [];
      ValueGrows([d[0]], front[1..]);
      assert n / 10 == Value(front) && n % 10 == DigitValue(d[|d| - 1]);
      FormatNatCanonical(front);
    }
  }
}

=== FILE: escape.dfy ===
/** Query-component percent-encoding, as `url.QueryEscape` and
    `url.QueryUnescape` of Go's `net/url` do it (section 2.1 of RFC 3986, with
    space written as `+`). */
module QueryEscape {
  import opened Wrappers
  import opened Text

  /** The unreserved characters of section 2.3 of RFC 3986: kept as they are. */
  predicate IsUnreserved(c: Byte) {
    IsLetter(c) || IsDigit(c) || c == '-' || c == '.' || c == '_' || c == '~'
  }

  /** The bytes an escaped string is made of. */
  predicate IsEscapedByte(c: Byte) {
    IsUnreserved(c) || c == '%' || c == '+'
  }

  /** The escaped form of one byte: unreserved bytes as they are, space as
      `+`, anything else as `%` and two upper-case hexadecimal digits. */
  function EscapeByte(c: Byte): (e: Bytes)
    ensures 1 <= |e| <= 3
    ensures forall i :: 0 <= i < |e| ==> IsEscapedByte(e[i])
    ensures IsUnreserved(c) ==> e == [c]
    ensures c == ' ' ==> e == "+"
    ensures !IsUnreserved(c) && c != ' ' ==>
      |e| == 3 && e[0] == '%' && IsUpperHex(e[1]) && IsUpperHex(e[2])
      && 16 * HexValue(e[1]) + HexValue(e[2]) == c as int
  {
    if IsUnreserved(c) then [c]
    else if c == ' ' then "+"
    else ['%', UpperHexDigit(c as int / 16), UpperHexDigit(c as int % 16)]
  }

  /** `url.QueryEscape`. */
  function Escape(s: Bytes): (r: Bytes)
    ensures forall i :: 0 <= i < |r| ==> IsEscapedByte(r[i])
    ensures |s| <= |r| <= 3 * |s|
  {
    if s == [] then [] else EscapeByte(s[0]) + Escape(s[1..])
  }

  /** Escaping a single byte is escaping that byte alone. */
  lemma EscapeSingle(c: Byte)
    ensures Escape([c]) == EscapeByte(c)
  {
  }

  /** Escaping works byte by byte: the escaped form of a concatenation is the
      concatenation of the escaped forms. */
  lemma {:induction false} EscapeAppend(a: Bytes, b: Bytes)
    ensures Escape(a + b) == Escape(a) + Escape(b)
    decreases |a|
  {
    if a == [] {
      assert a + b == b;
    } else {
      EscapeAppend(a[1..], b);
      assert (a + b)[0] == a[0];
      assert (a + b)[1..] == a[1..] + b;
    }
  }

  /** Every `%` in `t` starts an escape: two hexadecimal digits of either case
      follow it. */
  predicate WellEscaped(t: Bytes) {
    forall i :: 0 <= i < |t| && t[i] == '%' ==> i + 2 < |t| && IsHex(t[i + 1]) && IsHex(t[i + 2])
  }

  /** `url.QueryUnescape`: `+` becomes a space, `%` and two hexadecimal digits
      become the byte they spell, any other `%` is an error, and every other
      byte is kept. */
  function Unescape(t: Bytes): (r: Option<Bytes>)
    ensures r.Some? ==> |r.value| <= |t| && (|r.value| == 0 <==> |t| == 0)
    decreases |t|
  {
    if t == [] then Some([])
    else if t[0] == '%' then
      if |t| < 3 || !IsHex(t[1]) || !IsHex(t[2]) then None
      else match Unescape(t[3..])
        case None => None
        case Some(rest) => Some([(16 * HexValue(t[1]) + HexValue(t[2])) as char] + rest)
    else match Unescape(t[1..])
      case None => None
      case Some(rest) => Some([if t[0] == '+' then ' ' else t[0]] + rest)
  }

  /** Unescaping fails exactly on strings with a `%` that does not start an
      escape. */
  lemma {:induction false} UnescapeSucceeds(t: Bytes)
    ensures Unescape(t).Some? <==> WellEscaped(t)
    decreases |t|
  {
    if t != [] {
      if t[0] == '%' {
        if |t| >= 3 && IsHex(t[1]) && IsHex(t[2]) {
          UnescapeSucceeds(t[3..]);
          assert forall i :: 3 <= i < |t| ==> t[i] == t[3..][i - 3];
        }
      } else {
        UnescapeSucceeds(t[1..]);
        assert forall i :: 1 <= i < |t| ==> t[i] == t[1..][i - 1];
      }
    }
  }

  /** Unescaping undoes escaping. */
  lemma {:induction false} UnescapeEscape(s: Bytes)
    ensures Unescape(Escape(s)) == Some(s)
    decreases |s|
  {
    if s != [] {
      var c := s[0];
      var e := EscapeByte(c);
      var t := Escape(s);
      UnescapeEscape(s[1..]);
      assert t == e + Escape(s[1..]);
      if IsUnreserved(c) || c == ' ' {
        assert t[1..] == Escape(s[1..]);
      } else {
        assert t[3..] == Escape(s[1..]);
        assert 16 * HexValue(t[1]) + HexValue(t[2]) == c as int;
      }
      assert s == [c] + s[1..];
    }
  }

  /** Escaping leaves a string unchanged exactly when all its bytes are
      unreserved. */
  lemma {:induction false} EscapeIdentity(s: Bytes)
    ensures Escape(s) == s <==> forall i :: 0 <= i < |s| ==> IsUnreserved(s[i])
    decreases |s|
  {
    if s != [] {
      EscapeIdentity(s[1..]);
      var e := EscapeByte(s[0]);
      if IsUnreserved(s[0]) {
        assert forall i :: 1 <= i < |s| ==> s[i] == s[1..][i - 1];
        assert s == [s[0]] + s[1..];
      } else if s[0] == ' ' {
        assert Escape(s)[0] == '+' != s[0];
      } else {
        assert |Escape(s)| == 3 + |Escape(s[1..])| > |s|;
      }
    }
  }

  /** The value of each unit of an escaped string: a byte other than `%`
      stands for itself, or for a space when it is `+`; a `%` and two
      hexadecimal digits stand for the byte they spell. */
  lemma UnescapeUnits(c: Byte, h1: Byte, h2: Byte)
    ensures c != '%' ==> Unescape([c]) == Some([if c == '+' then ' ' else c])
    ensures IsHex(h1) && IsHex(h2) ==>
      Unescape(['%', h1, h2]) == Some([(16 * HexValue(h1) + HexValue(h2)) as char])
  {
    if c != '%' {
      assert [c][1..] == [];
      assert Unescape([c][1..]) == Some([]);
      var u := if c == '+' then ' ' else c;
      assert [u] + [] == [u];
    }
    if IsHex(h1) && IsHex(h2) {
      var t: Bytes := ['%', h1, h2];
      var v := (16 * HexValue(h1) + HexValue(h2)) as char;
      assert t[0] == '%' && t[1] == h1 && t[2] == h2;
      assert t[3..] == [];
      assert Unescape(t[3..]) == Some([]);
      assert Unescape(t) == Some([v] + []);
      assert [v] + [] == [v];
    }
  }

  /** Unescaping a string that starts with a byte other than `%`. */
  lemma UnescapePlain(c: Byte, t: Bytes)
    requires c != '%'
    ensures Unescape([c] + t).Some? <==> Unescape(t).Some?
    ensures Unescape(t).Some? ==>
      Unescape([c] + t).value == [if c == '+' then ' ' else c] + Unescape(t).value
  {
  }

  /** Unescaping a string that starts with an escape. */
  lemma UnescapeHex(h1: Byte, h2: Byte, t: Bytes)
    requires IsHex(h1) && IsHex(h2)
    ensures Unescape(['%', h1, h2] + t).Some? <==> Unescape(t).Some?
    ensures Unescape(t).Some? ==>
      Unescape(['%', h1, h2] + t).value
      == [(16 * HexValue(h1) + HexValue(h2)) as char] + Unescape(t).value
  {
  }

  /** One step of `UnescapeAppendSome` for a leading byte other than `%`. */
  lemma AppendPlainStep(c: Byte, t: Bytes, b: Bytes, y: Bytes)
    requires c != '%' && Unescape(t).Some?
    requires Unescape(t + b) == Some(Unescape(t).value + y)
    ensures Unescape([c] + t).Some?
    ensures Unescape([c] + (t + b)) == Some(Unescape([c] + t).value + y)
  {
    UnescapePlain(c, t);
    UnescapePlain(c, t + b);
    var u := if c == '+' then ' ' else c;
    assert [u] + Unescape(t).value + y == [u] + (Unescape(t).value + y);
  }

  /** One step of `UnescapeAppendSome` for a leading escape. */
  lemma AppendHexStep(h1: Byte, h2: Byte, t: Bytes, b: Bytes, y: Bytes)
    requires IsHex(h1) && IsHex(h2) && Unescape(t).Some?
    requires Unescape(t + b) == Some(Unescape(t).value + y)
    ensures Unescape(['%', h1, h2] + t).Some?
    ensures Unescape(['%', h1, h2] + (t + b)) == Some(Unescape(['%', h1, h2] + t).value + y)
  {
    UnescapeHex(h1, h2, t);
    UnescapeHex(h1, h2, t + b);
    var v := (16 * HexValue(h1) + HexValue(h2)) as char;
    assert [v] + Unescape(t).value + y == [v] + (Unescape(t).value + y);
  }

  /** Unescaping works unit by unit: two strings that unescape can be
      unescaped separately and the results joined. */
  lemma {:induction false} UnescapeAppendSome(a: Bytes, b: Bytes, x: Bytes, y: Bytes)
    requires Unescape(a) == Some(x) && Unescape(b) == Some(y)
    ensures Unescape(a + b) == Some(x + y)
    decreases |a|
  {
    if a == [] {
      assert a + b == b && x + y == y;
    } else if a[0] == '%' {
      var t := a[3..];
      var h := ['%', a[1], a[2]];
      assert a == h + t;
      assert a + b == h + (t + b);
      UnescapeAppendSome(t, b, Unescape(t).value, y);
      AppendHexStep(a[1], a[2], t, b, y);
    } else {
      var t := a[1..];
      assert a == [a[0]] + t;
      assert a + b == [a[0]] + (t + b);
      UnescapeAppendSome(t, b, Unescape(t).value, y);
      AppendPlainStep(a[0], t, b, y);
    }
  }

  /** Unescaping a concatenation of well-escaped strings joins their
      unescaped forms. */
  lemma UnescapeAppend(a: Bytes, b: Bytes)
    requires WellEscaped(a) && WellEscaped(b)
    ensures Unescape(a).Some? && Unescape(b).Some?
    ensures Unescape(a + b) == Some(Unescape(a).value + Unescape(b).value)
  {
    UnescapeSucceeds(a);
    UnescapeSucceeds(b);
    UnescapeAppendSome(a, b, Unescape(a).value, Unescape(b).value);
  }
}

=== FILE: grammar.dfy ===
/** The BOM-Link grammar:
      urn:cdx:<serial>/<version>[#<reference>]
    with <serial> a lower-case hyphenated UUID, <version> one or more decimal
    digits and <reference> one or more bytes of the reference alphabet. The
    recogniser below accepts the same language as the anchored regular
    expression of the Go implementation; the capture function returns its
    three groups. */
module Grammar {
  import opened Wrappers
  import opened Text
  import Uuid
  import Decimal

  const Scheme: Bytes := "urn:cdx:"

  /** The bytes a reference group may hold: letters, digits and
      `- . _ ~ % ! $ & ' ( ) * + , ; = : @ / ?`. */
  predicate IsRefChar(c: Byte) {
    IsLetter(c) || IsDigit(c) || c in "-._~%!$&'()*+,;=:@/?"
  }

  predicate AllRefChars(t: Bytes) {
    forall i :: 0 <= i < |t| ==> IsRefChar(t[i])
  }

  /** The `#<reference>` part, which is absent when the reference is empty. */
  function Fragment(r: Bytes): (f: Bytes) {
    if r == [] then [] else "#" + r
  }

  /** What may follow the first version digit: further digits, then either
      the end of the string or `#` and one or more reference bytes. */
  predicate AfterVersionDigit(t: Bytes)
    decreases |t|
  {
    || t == []
    || (IsDigit(t[0]) && AfterVersionDigit(t[1..]))
    || (t[0] == '#' && |t| >= 2 && AllRefChars(t[1..]))
  }

  /** `IsBOMLink`: the whole string matches the grammar. */
  predicate IsBOMLink(s: Bytes) {
    && |s| >= 46
    && s[..8] == Scheme
    && Uuid.IsUuidText(s[8..44], true)
    && s[44] == '/'
    && IsDigit(s[45])
    && AfterVersionDigit(s[46..])
  }

  /** The three capture groups of a match; an unmatched optional group is
      the empty string, as in Go. */
  datatype Captures = Captures(serialNumber: Bytes, version: Bytes, bomRef: Bytes)

  /** Each group holds what its sub-pattern allows. */
  predicate WellFormed(c: Captures) {
    && Uuid.IsUuidText(c.serialNumber, true)
    && |c.version| >= 1 && Decimal.AllDigits(c.version)
    && AllRefChars(c.bomRef)
  }

  /** The string whose match yields the given groups. */
  function Compose(c: Captures): (s: Bytes) {
    Scheme + c.serialNumber + "/" + c.version + Fragment(c.bomRef)
  }

  /** The length of the run of decimal digits that starts `t`. */
  function DigitRun(t: Bytes): (n: nat)
    ensures n <= |t| && Decimal.AllDigits(t[..n])
    ensures n < |t| ==> !IsDigit(t[n])
    decreases |t|
  {
    if t == [] || !IsDigit(t[0]) then 0
    else
      var n := 1 + DigitRun(t[1..]);
      assert t[..n] == [t[0]] + t[1..][..n - 1];
      n
  }

  /** `FindStringSubmatch`: the groups of the match, or `None` when the string
      does not match. A matching string is exactly its groups put together,
      and each group holds what its sub-pattern allows. */
  function FindSubmatch(s: Bytes): (r: Option<Captures>)
    ensures r.Some? <==> IsBOMLink(s)
    ensures r.Some? ==> WellFormed(r.value) && Compose(r.value) == s
  {
    if !IsBOMLink(s) then None
    else
      GroupsCompose(s);
      Some(Groups(s))
  }

  /** The three groups of a matching string: the serial number, the digit
      run after `/`, and what follows the `#` after it, if anything. */
  function Groups(s: Bytes): (c: Captures)
    requires IsBOMLink(s)
  {
    var rest := s[45..];
    var n := DigitRun(rest);
    Captures(s[8..44], rest[..n], if n == |rest| then [] else rest[n + 1..])
  }

  /** The groups of a matching string are well formed and make up the
      string. */
  lemma GroupsCompose(s: Bytes)
    requires IsBOMLink(s)
    ensures WellFormed(Groups(s)) && Compose(Groups(s)) == s
  {
    var rest := s[45..];
    var n := DigitRun(rest);
    var c := Groups(s);
    SplitAfterDigits(rest);
    assert s == s[..8] + s[8..44] + "/" + rest;
    assert rest == rest[..n] + Fragment(c.bomRef);
  }

  /** A string of at least one digit followed by what may follow it splits at
      the end of its digit run into the version and the fragment. */
  lemma {:induction false} SplitAfterDigits(t: Bytes)
    requires |t| >= 1 && IsDigit(t[0]) && AfterVersionDigit(t[1..])
    ensures var n := DigitRun(t);
            n == |t| || (t[n] == '#' && |t| >= n + 2 && AllRefChars(t[n + 1..]))
    decreases |t|
  {
    var u := t[1..];
    if u != [] && IsDigit(u[0]) {
      SplitAfterDigits(u);
      var m := DigitRun(u);
      if m < |u| {
        assert t[m + 1] == u[m];
        assert t[m + 2..] == u[m + 1..];
      }
    } else if u != [] {
      assert t[2..] == u[1..];
    }
  }

  /** Digits followed by a fragment are recognised, and the digit run stops
      exactly where the fragment begins. */
  lemma DigitsThenFragment(v: Bytes, r: Bytes)
    requires |v| >= 1 && Decimal.AllDigits(v) && AllRefChars(r)
    ensures AfterVersionDigit((v + Fragment(r))[1..])
    ensures DigitRun(v + Fragment(r)) == |v|
  {
    var f := Fragment(r);
    assert f == [] || (f[0] == '#' && |f| >= 2 && AllRefChars(f[1..])) by {
      if r != [] {
        assert f[1..] == r;
      }
    }
    DigitsThenTail(v, f);
    DigitRunThenTail(v, f);
  }

  /** Digits followed by the end or by a fragment are what may follow the
      first version digit. */
  lemma {:induction false} DigitsThenTail(v: Bytes, f: Bytes)
    requires |v| >= 1 && Decimal.AllDigits(v)
    requires f == [] || (f[0] == '#' && |f| >= 2 && AllRefChars(f[1..]))
    ensures AfterVersionDigit((v + f)[1..])
    decreases |v|
  {
    if |v| == 1 {
      assert (v + f)[1..] == f;
    } else {
      DigitsThenTail(v[1..], f);
      var u := (v + f)[1..];
      assert u == v[1..] + f;
      assert u[1..] == (v[1..] + f)[1..];
    }
  }

  /** The digit run of digits followed by something that does not start
      with a digit is exactly those digits. */
  lemma {:induction false} DigitRunThenTail(v: Bytes, f: Bytes)
    requires Decimal.AllDigits(v)
    requires f == [] || !IsDigit(f[0])
    ensures DigitRun(v + f) == |v|
    decreases |v|
  {
    if v == [] {
      assert v + f == f;
    } else {
      DigitRunThenTail(v[1..], f);
      assert (v + f)[1..] == v[1..] + f;
    }
  }

  /** Where the parts of a composed string lie. */
  lemma ComposeParts(c: Captures)
    requires |c.serialNumber| == 36
    ensures var s := Compose(c);
            && |s| == 45 + |c.version + Fragment(c.bomRef)|
            && s[..8] == Scheme && s[8..44] == c.serialNumber && s[44] == '/'
            && s[45..] == c.version + Fragment(c.bomRef)
  {
    var s := Compose(c);
    assert s == (Scheme + c.serialNumber + "/") + (c.version + Fragment(c.bomRef));
  }

  /** Putting well-formed groups together gives a matching string whose
      groups are those same groups. */
  lemma ComposeMatches(c: Captures)
    requires WellFormed(c)
    ensures IsBOMLink(Compose(c)) && FindSubmatch(Compose(c)) == Some(c)
  {
    var s := Compose(c);
    var rest := c.version + Fragment(c.bomRef);
    ComposeParts(c);
    DigitsThenFragment(c.version, c.bomRef);
    assert s[46..] == rest[1..];
    assert IsBOMLink(s);
    assert rest[..|c.version|] == c.version;
    if c.bomRef != [] {
      assert rest[|c.version| + 1..] == c.bomRef;
    }
  }

  /** The recogniser accepts exactly the strings made of well-formed groups:
      `urn:cdx:`, a lower-case UUID, `/`, one or more digits, and an optional
      `#` with one or more reference bytes. */
  lemma IsBOMLinkLanguage(s: Bytes)
    ensures IsBOMLink(s) <==> exists c :: WellFormed(c) && Compose(c) == s
  {
    if IsBOMLink(s) {
      var c := FindSubmatch(s).value;
      assert WellFormed(c) && Compose(c) == s;
    }
    forall c | WellFormed(c) && Compose(c) == s ensures IsBOMLink(s) {
      ComposeMatches(c);
    }
  }
}

=== FILE: link.dfy ===
/** BOM Links: a reference to one version of a BOM document, identified by its
    serial number, optionally narrowed to one component or service inside it
    by its `bom-ref`. This module builds links, renders them, recognises their
    string form and parses it back. */
module Link {
  import opened Wrappers
  import opened Text
  import Uuid
  import opened Decimal
  import QueryEscape
  import opened Grammar

  /** A BOM Link: the serial number and version of the linked BOM and the
      reference of the linked element, empty for the BOM as a whole. */
  datatype BOMLink = BOMLink(serialNumber: Uuid.UUID, version: GoInt, reference: Bytes)

  /** The fields of a BOM that a link is built from: its serial number as
      written in the BOM (empty when unset) and its version. */
  datatype Bom = Bom(serialNumber: Bytes, version: GoInt)

  /** The parts of a component and of a service that a link uses. */
  datatype Component = Component(bomRef: Bytes)
  datatype Service = Service(bomRef: Bytes)

  /** The dynamic type of the element argument: a component or a service,
      by value or through a pointer, or a value of any other type. */
  datatype Element =
    | ComponentValue(component: Component)
    | ComponentPointer(component: Component)
    | ServiceValue(service: Service)
    | ServicePointer(service: Service)
    | OtherType

  /** One kind per error the link operations return. */
  datatype Error =
    | NilBom                // the BOM is nil
    | MissingSerialNumber   // the BOM has no serial number
    | VersionBelowOne       // the BOM's version is below 1
    | InvalidSerialNumber   // the serial number is not a UUID
    | NotReferenceable      // the element is neither a component nor a service
    | MissingBomRef         // the element has no bom-ref
    | NoMatch               // the string does not match the grammar
    | InvalidVersion        // the version does not fit in an int
    | InvalidReference      // the reference holds a malformed escape

  /** The element kinds a link can point into. */
  predicate IsReferenceable(e: Element) {
    !e.OtherType?
  }

  /** The bom-ref of a component or service, whichever way it is passed. */
  function BomRefOf(e: Element): (ref: Bytes)
    requires IsReferenceable(e)
  {
    match e
    case ComponentValue(c) => c.bomRef
    case ComponentPointer(c) => c.bomRef
    case ServiceValue(s) => s.bomRef
    case ServicePointer(s) => s.bomRef
  }

  /** `NewBOMLink`: the BOM is checked first (present, with a serial number,
      with a version of at least 1, with a serial number that is a UUID, in
      that order), then the element, if one is given (a component or a
      service, with a non-empty bom-ref). */
  function NewBOMLink(bom: Option<Bom>, elem: Option<Element>): (r: Result<BOMLink, Error>)
    ensures bom.None? ==> r == Err(NilBom)
    ensures bom.Some? && bom.value.serialNumber == [] ==> r == Err(MissingSerialNumber)
    ensures bom.Some? && bom.value.serialNumber != [] && bom.value.version < 1 ==>
              r == Err(VersionBelowOne)
    ensures (bom.Some? && bom.value.serialNumber != [] && bom.value.version >= 1
             && !Uuid.IsUuidText(bom.value.serialNumber, false)) ==> r == Err(InvalidSerialNumber)
    ensures bom.Some? && Uuid.IsUuidText(bom.value.serialNumber, false) && bom.value.version >= 1 ==>
              && (elem.Some? && !IsReferenceable(elem.value) ==> r == Err(NotReferenceable))
              && (elem.Some? && IsReferenceable(elem.value) && BomRefOf(elem.value) == [] ==>
                    r == Err(MissingBomRef))
    ensures r.Ok? ==>
              && bom.Some?
              && r.value.version == bom.value.version >= 1
              && Uuid.Parse(bom.value.serialNumber) == Some(r.value.serialNumber)
              && (elem.None? ==> r.value.reference == [])
              && (elem.Some? ==> IsReferenceable(elem.value) && r.value.reference == BomRefOf(elem.value) != [])
    ensures r.Ok? <==>
              && bom.Some? && bom.value.version >= 1
              && Uuid.IsUuidText(bom.value.serialNumber, false)
              && (elem.Some? ==> IsReferenceable(elem.value) && BomRefOf(elem.value) != [])
    ensures r.Err? ==> r.error in {NilBom, MissingSerialNumber, VersionBelowOne, InvalidSerialNumber,
                                   NotReferenceable, MissingBomRef}
  {
    if bom.None? then Err(NilBom)
    else if bom.value.serialNumber == [] then Err(MissingSerialNumber)
    else if bom.value.version < 1 then Err(VersionBelowOne)
    else match Uuid.Parse(bom.value.serialNumber)
      case None => Err(InvalidSerialNumber)
      case Some(serial) =>
        if elem.None? then Ok(BOMLink(serial, bom.value.version, []))
        else if !IsReferenceable(elem.value) then Err(NotReferenceable)
        else if BomRefOf(elem.value) == [] then Err(MissingBomRef)
        else Ok(BOMLink(serial, bom.value.version, BomRefOf(elem.value)))
  }

  /** `BOMLink.String`: `urn:cdx:<serial>/<version>`, then `#` and the
      query-escaped reference when the reference is not empty. */
  function String(b: BOMLink): (r: Bytes)
    ensures |r| >= 8 && r[..8] == Scheme
    ensures '#' in r <==> b.reference != []
    ensures b.version >= 0 ==> IsBOMLink(r)
  {
    RenderedLink(b);
    Compose(Rendered(b))
  }

  /** The three parts of a rendered link: the canonical serial number, the
      decimal version and the escaped reference. */
  function Rendered(b: BOMLink): (c: Captures) {
    Captures(Uuid.Format(b.serialNumber), FormatInt(b.version), QueryEscape.Escape(b.reference))
  }

  /** The shape of a rendered link: the scheme first, `#` exactly when the
      reference is not empty, and a match of the grammar for a non-negative
      version. */
  lemma RenderedLink(b: BOMLink)
    ensures var r := Compose(Rendered(b));
            && |r| >= 8 && r[..8] == Scheme
            && ('#' in r <==> b.reference != [])
            && (b.version >= 0 ==> WellFormed(Rendered(b)) && FindSubmatch(r) == Some(Rendered(b)))
  {
    var serial := Uuid.Format(b.serialNumber);
    var version := FormatInt(b.version);
    var ref := QueryEscape.Escape(b.reference);
    assert '#' !in version by {
      if b.version < 0 {
        assert version == [version[0]] + version[1..];
      }
    }
    RenderedShape(serial, version, ref);
    if b.version >= 0 {
      RenderedMatches(b);
    }
  }

  /** The parts of a rendered link with a non-negative version are what the
      grammar's groups allow, and the match finds them again. */
  lemma RenderedMatches(b: BOMLink)
    requires b.version >= 0
    ensures WellFormed(Rendered(b)) && FindSubmatch(Compose(Rendered(b))) == Some(Rendered(b))
  {
    var ref := QueryEscape.Escape(b.reference);
    forall i | 0 <= i < |ref| ensures IsRefChar(ref[i]) {
      assert QueryEscape.IsEscapedByte(ref[i]);
    }
    ComposeMatches(Rendered(b));
  }

  /** A rendered link starts with the scheme, and holds `#` exactly when it
      carries a fragment. */
  lemma RenderedShape(serial: Bytes, version: Bytes, ref: Bytes)
    requires Uuid.IsUuidText(serial, true) && '#' !in version
    ensures var r := Compose(Captures(serial, version, ref));
            |r| >= 8 && r[..8] == Scheme && ('#' in r <==> ref != [])
  {
    var head := Scheme + serial + "/" + version;
    var r := head + Fragment(ref);
    assert r[..8] == Scheme;
    assert '#' !in head by {
      assert forall i :: 0 <= i < 36 ==> serial[i] != '#' by {
        assert forall i :: 0 <= i < 8 ==> serial[i] == serial[..8][i];
        assert forall i :: 9 <= i < 13 ==> serial[i] == serial[9..13][i - 9];
        assert forall i :: 14 <= i < 18 ==> serial[i] == serial[14..18][i - 14];
        assert forall i :: 19 <= i < 23 ==> serial[i] == serial[19..23][i - 19];
        assert forall i :: 24 <= i < 36 ==> serial[i] == serial[24..][i - 24];
      }
    }
    if ref != [] {
      assert r[|head|] == '#';
    }
  }

  /** `ParseBOMLink`: match the grammar, then read the serial number as a
      UUID, the version with `Atoi` and the reference with
      `QueryUnescape`. The reference group is empty when the fragment is
      absent, and unescapes to the empty reference. */
  function ParseBOMLink(s: Bytes): (r: Result<BOMLink, Error>)
    ensures r.Ok? ==> IsBOMLink(s)
    ensures r == Err(NoMatch) <==> !IsBOMLink(s)
    ensures r != Err(InvalidSerialNumber)
    ensures r.Ok? ==> r.value.version >= 0 && (r.value.reference == [] <==> '#' !in s)
    ensures r.Err? ==> r.error in {NoMatch, InvalidVersion, InvalidReference}
  {
    match FindSubmatch(s)
    case None => Err(NoMatch)
    case Some(c) =>
      SerialGroupParses(c);
      match Uuid.Parse(c.serialNumber)
      case None => Err(InvalidSerialNumber)
      case Some(serial) =>
        match Atoi(c.version)
        case None => Err(InvalidVersion)
        case Some(version) =>
          match QueryEscape.Unescape(c.bomRef)
          case None => Err(InvalidReference)
          case Some(ref) =>
            AtoiDigits(c.version);
            HashOnlyInFragment(c);
            Ok(BOMLink(serial, version, ref))
  }

  /** The serial-number group of a match always reads as a UUID. */
  lemma SerialGroupParses(c: Captures)
    requires WellFormed(c)
    ensures Uuid.Parse(c.serialNumber).Some?
  {
    Uuid.FormatParse(c.serialNumber);
  }

  /** In a matching string, `#` occurs exactly when the reference group is
      not empty. */
  lemma HashOnlyInFragment(c: Captures)
    requires WellFormed(c)
    ensures '#' in Compose(c) <==> c.bomRef != []
  {
    RenderedShape(c.serialNumber, c.version, c.bomRef);
  }
}

=== FILE: properties.dfy ===
/** Laws relating the BOM-Link operations to each other: rendering and parsing
    are inverse, parsing succeeds exactly on matching strings whose version
    fits and whose reference is well escaped, and the grammar alone does not
    guarantee a successful parse. */
module LinkProperties {
  import opened Wrappers
  import opened Text
  import Uuid
  import opened Decimal
  import QueryEscape
  import opened Grammar
  import opened Link

  /** Parsing the rendering of a link with a non-negative version gives the
      link back: serial number, version and reference. */
  lemma RoundTrip(b: BOMLink)
    requires b.version >= 0
    ensures ParseBOMLink(String(b)) == Ok(b)
  {
    RenderedLink(b);
    Uuid.ParseFormat(b.serialNumber);
    AtoiFormatInt(b.version);
    QueryEscape.UnescapeEscape(b.reference);
  }

  /** A link to an element is the link to its BOM, then `#`, then the
      escaped reference: bytes of `[A-Za-z0-9-._~%+]` that unescape to the
      reference. */
  lemma ElementLinkExtendsDocumentLink(b: BOMLink)
    requires b.reference != []
    ensures var e := QueryEscape.Escape(b.reference);
            && String(b) == String(BOMLink(b.serialNumber, b.version, [])) + "#" + e
            && (forall i :: 0 <= i < |e| ==> QueryEscape.IsEscapedByte(e[i]))
            && QueryEscape.Unescape(e) == Some(b.reference)
  {
    QueryEscape.UnescapeEscape(b.reference);
  }

  /** Every link `NewBOMLink` builds survives rendering and parsing. */
  lemma NewLinkRoundTrip(bom: Option<Bom>, elem: Option<Element>)
    requires NewBOMLink(bom, elem).Ok?
    ensures ParseBOMLink(String(NewBOMLink(bom, elem).value)) == NewBOMLink(bom, elem)
  {
    RoundTrip(NewBOMLink(bom, elem).value);
  }

  /** Parsing succeeds exactly when the string matches, its version digits
      denote at most 2^63 - 1, and every `%` of its reference starts an
      escape. */
  lemma ParseSucceeds(s: Bytes)
    ensures ParseBOMLink(s).Ok? <==>
              && IsBOMLink(s)
              && Value(FindSubmatch(s).value.version) <= MaxInt
              && QueryEscape.WellEscaped(FindSubmatch(s).value.bomRef)
  {
    if IsBOMLink(s) {
      var c := FindSubmatch(s).value;
      AtoiDigits(c.version);
      QueryEscape.UnescapeSucceeds(c.bomRef);
    }
  }

  /** Which error a matching string that does not parse gets: the version is
      read before the reference, so an overflowing version is reported even
      when the reference is malformed too. */
  lemma ParseErrors(s: Bytes)
    requires IsBOMLink(s)
    ensures var c := FindSubmatch(s).value;
            && (ParseBOMLink(s) == Err(InvalidVersion) <==> Value(c.version) > MaxInt)
            && (ParseBOMLink(s) == Err(InvalidReference) <==>
                  Value(c.version) <= MaxInt && !QueryEscape.WellEscaped(c.bomRef))
  {
    var c := FindSubmatch(s).value;
    AtoiDigits(c.version);
    QueryEscape.UnescapeSucceeds(c.bomRef);
  }

  /** What a successful parse yields: the UUID whose canonical text is the
      serial group, the decimal value of the version group, and the
      unescaped reference group. */
  lemma ParsedFields(s: Bytes)
    ensures ParseBOMLink(s).Ok? ==>
              var b := ParseBOMLink(s).value;
              var c := FindSubmatch(s).value;
              && Uuid.Format(b.serialNumber) == c.serialNumber
              && b.version == Value(c.version)
              && QueryEscape.Unescape(c.bomRef) == Some(b.reference)
  {
    if ParseBOMLink(s).Ok? {
      var c := FindSubmatch(s).value;
      AtoiDigits(c.version);
      Uuid.FormatParse(c.serialNumber);
    }
  }

  /** A matching string can still fail to parse: a reference with a `%` that
      is not followed by two hexadecimal digits. */
  lemma MatchWithBadEscape(u: Uuid.UUID)
    ensures var s := Compose(Captures(Uuid.Format(u), "1", "%zz"));
            IsBOMLink(s) && ParseBOMLink(s) == Err(InvalidReference)
  {
    var c := Captures(Uuid.Format(u), "1", "%zz");
    ComposeMatches(c);
    assert Value(c.version) == 1 by {
      assert c.version[..0] == [];
    }
    AtoiDigits(c.version);
  }

  /** A matching string can still fail to parse: version digits whose value
      does not fit in a 64-bit `int`. */
  lemma MatchWithOverflowingVersion(u: Uuid.UUID, n: nat)
    requires n > MaxInt
    ensures var s := Compose(Captures(Uuid.Format(u), FormatNat(n), []));
            IsBOMLink(s) && ParseBOMLink(s) == Err(InvalidVersion)
  {
    var c := Captures(Uuid.Format(u), FormatNat(n), []);
    ComposeMatches(c);
    AtoiDigits(c.version);
  }

  /** Leading zeros in the version are accepted and dropped: `…/007` parses
      to version 7, which renders as `…/7`. */
  lemma LeadingZeros(u: Uuid.UUID)
    ensures ParseBOMLink(Compose(Captures(Uuid.Format(u), "007", []))) == Ok(BOMLink(u, 7, []))
    ensures String(BOMLink(u, 7, [])) == Compose(Captures(Uuid.Format(u), "7", []))
  {
    var c := Captures(Uuid.Format(u), "007", []);
    ComposeMatches(c);
    assert Value("007") == 7 by {
      assert "007"[..2] == "00" && "00"[..1] == "0" && "0"[..0] == [];
    }
    AtoiDigits(c.version);
    Uuid.ParseFormat(u);
    assert FormatInt(7) == "7";
  }

  /** Parsing accepts version 0, which `NewBOMLink` refuses. */
  lemma VersionZero(u: Uuid.UUID)
    ensures ParseBOMLink(Compose(Captures(Uuid.Format(u), "0", []))) == Ok(BOMLink(u, 0, []))
    ensures NewBOMLink(Some(Bom(Uuid.Format(u), 0)), None) == Err(VersionBelowOne)
  {
    var c := Captures(Uuid.Format(u), "0", []);
    ComposeMatches(c);
    assert Value("0") == 0 by {
      assert "0"[..0] == [];
    }
    AtoiDigits(c.version);
    Uuid.ParseFormat(u);
  }
}

=== FILE: scenarios.dfy ===
/** Worked examples of the BOM-Link operations on concrete inputs. */
module LinkScenarios {
  import opened Wrappers
  import opened Text
  import Uuid
  import opened Decimal
  import QueryEscape
  import opened Grammar
  import opened Link

  /** The serial number 3e671687-395b-41f5-a30f-a58921a69b79. */
  const Serial: Bytes := Uuid.Hyphenate("3e671687", "395b", "41f5", "a30f", "a58921a69b79")

  lemma LowerHexRun(s: Bytes)
    requires forall i :: 0 <= i < |s| ==> s[i] in "0123456789abcdef"
    ensures Uuid.HexRun(s, true)
  {
  }

  /** The example serial number is a lower-case hyphenated UUID, so the
      lemmas below apply to it. */
  lemma SerialIsLowerHex()
    ensures Uuid.IsUuidText(Serial, true)
  {
    LowerHexRun("3e671687");
    LowerHexRun("395b");
    LowerHexRun("41f5");
    LowerHexRun("a30f");
    LowerHexRun("a58921a69b79");
  }

  /** A document-level link renders without a fragment, and its serial
      number renders as it was written. */
  lemma DocumentLink(serial: Bytes)
    requires Uuid.IsUuidText(serial, true)
    ensures NewBOMLink(Some(Bom(serial, 1)), None).Ok?
    ensures String(NewBOMLink(Some(Bom(serial, 1)), None).value) == "urn:cdx:" + serial + "/1"
  {
    Uuid.FormatParse(serial);
    assert FormatInt(1) == "1";
  }

  /** A link to a component renders its bom-ref after `#`; a bom-ref such
      as `componentA`, made of unreserved bytes only, is not escaped. */
  lemma ComponentLink(serial: Bytes, ref: Bytes)
    requires Uuid.IsUuidText(serial, true)
    requires ref != [] && forall i :: 0 <= i < |ref| ==> QueryEscape.IsUnreserved(ref[i])
    ensures NewBOMLink(Some(Bom(serial, 2)), Some(ComponentValue(Component(ref)))).Ok?
    ensures String(NewBOMLink(Some(Bom(serial, 2)), Some(ComponentValue(Component(ref)))).value)
            == "urn:cdx:" + serial + "/2#" + ref
  {
    Uuid.FormatParse(serial);
    var l := BOMLink(Uuid.Parse(serial).value, 2, ref);
    BuildComponentLink(serial, ref);
    RenderUnreserved(l, serial);
  }

  lemma BuildComponentLink(serial: Bytes, ref: Bytes)
    requires Uuid.Parse(serial).Some? && ref != []
    ensures NewBOMLink(Some(Bom(serial, 2)), Some(ComponentValue(Component(ref))))
            == Ok(BOMLink(Uuid.Parse(serial).value, 2, ref))
  {
  }

  lemma RenderUnreserved(l: BOMLink, serial: Bytes)
    requires l.version == 2 && Uuid.Format(l.serialNumber) == serial
    requires l.reference != [] && forall i :: 0 <= i < |l.reference| ==> QueryEscape.IsUnreserved(l.reference[i])
    ensures String(l) == "urn:cdx:" + serial + "/2#" + l.reference
  {
    assert FormatInt(2) == "2";
    QueryEscape.EscapeIdentity(l.reference);
    assert Rendered(l) == Captures(serial, "2", l.reference);
  }

  /** A reference that needs escaping: space becomes `+` and `#` becomes
      `%23`. */
  lemma EscapedReference(serial: Bytes)
    requires Uuid.IsUuidText(serial, true)
    ensures NewBOMLink(Some(Bom(serial, 3)), Some(ServicePointer(Service("a b#")))).Ok?
    ensures String(NewBOMLink(Some(Bom(serial, 3)), Some(ServicePointer(Service("a b#")))).value)
            == "urn:cdx:" + serial + "/3#a+b%23"
  {
    Uuid.FormatParse(serial);
    var u := Uuid.Parse(serial).value;
    var l := BOMLink(u, 3, "a b#");
    assert NewBOMLink(Some(Bom(serial, 3)), Some(ServicePointer(Service("a b#")))) == Ok(l);
    assert FormatInt(3) == "3";
    EscapeSpaceAndHash();
    assert Rendered(l) == Captures(serial, "3", "a+b%23");
  }

  lemma EscapeSpaceAndHash()
    ensures QueryEscape.Escape("a b#") == "a+b%23"
  {
    assert QueryEscape.Escape("#") == "%23";
    assert QueryEscape.Escape("b#") == "b%23";
    assert QueryEscape.Escape(" b#") == "+b%23";
  }

  /** Parsing a document-level link. */
  lemma ParseDocumentLink(serial: Bytes)
    requires Uuid.IsUuidText(serial, true)
    ensures Uuid.Parse(serial).Some?
    ensures ParseBOMLink("urn:cdx:" + serial + "/1") == Ok(BOMLink(Uuid.Parse(serial).value, 1, []))
  {
    var c := Captures(serial, "1", []);
    ComposeMatches(c);
    assert Compose(c) == "urn:cdx:" + serial + "/1";
    assert Value("1") == 1 by {
      assert "1"[..0] == [];
    }
    AtoiDigits("1");
  }

  /** A string whose serial number is not a UUID fails the grammar. */
  lemma ParseNotUuid()
    ensures ParseBOMLink("urn:cdx:not-a-uuid/1") == Err(NoMatch)
  {
  }

  /** Arbitrary text is not a link. */
  lemma NotALink()
    ensures !IsBOMLink("not a link")
  {
  }

  /** Any other element type is refused, and so is an element without a
      bom-ref. */
  lemma RefusedElements(serial: Bytes)
    requires Uuid.IsUuidText(serial, true)
    ensures NewBOMLink(Some(Bom(serial, 1)), Some(OtherType)) == Err(NotReferenceable)
    ensures NewBOMLink(Some(Bom(serial, 1)), Some(ServiceValue(Service([])))) == Err(MissingBomRef)
  {
  }
}

=== FILE: text.dfy ===
/** Bytes and byte classes. A Go string is a sequence of bytes; the model writes
    each byte as the character with that code, so that ASCII literals can be
    used directly. */
module Text {

  /** One byte of a Go string. */
  type Byte = c: char | c as int < 256 witness 'a'

  /** A Go string, as the bytes it holds. */
  type Bytes = seq<Byte>

  /** A numeric octet, as stored in a UUID. */
  type Octet = x: int | 0 <= x < 256

  predicate IsDigit(c: Byte) {
    '0' <= c <= '9'
  }

  predicate IsLowerHex(c: Byte) {
    IsDigit(c) || 'a' <= c <= 'f'
  }

  predicate IsUpperHex(c: Byte) {
    IsDigit(c) || 'A' <= c <= 'F'
  }

  /** A hexadecimal digit in either case. */
  predicate IsHex(c: Byte) {
    IsLowerHex(c) || IsUpperHex(c)
  }

  predicate IsLetter(c: Byte) {
    'a' <= c <= 'z' || 'A' <= c <= 'Z'
  }

  /** The value of a hexadecimal digit of either case. */
  function HexValue(c: Byte): (v: nat)
    requires IsHex(c)
    ensures v < 16
    ensures IsDigit(c) ==> v == c as int - '0' as int
  {
    if IsDigit(c) then c as int - '0' as int
    else if 'a' <= c <= 'f' then c as int - 'a' as int + 10
    else c as int - 'A' as int + 10
  }

  /** The lower-case hexadecimal digit of a value below 16. */
  function LowerHexDigit(v: nat): (c: Byte)
    requires v < 16
    ensures IsLowerHex(c) && HexValue(c) == v
  {
    if v < 10 then ('0' as int + v) as char else ('a' as int + v - 10) as char
  }

  /** The upper-case hexadecimal digit of a value below 16. */
  function UpperHexDigit(v: nat): (c: Byte)
    requires v < 16
    ensures IsUpperHex(c) && HexValue(c) == v
  {
    if v < 10 then ('0' as int + v) as char else ('A' as int + v - 10) as char
  }

  /** The decimal digit of a value below 10. */
  function DecimalDigit(v: nat): (c: Byte)
    requires v < 10
    ensures IsDigit(c) && c as int - '0' as int == v
  {
    ('0' as int + v) as char
  }

  /** The ASCII lower-case form of a byte: `A`-`Z` become `a`-`z`, every
      other byte is kept. */
  function LowerByte(c: Byte): (l: Byte)
    ensures 'A' <= c <= 'Z' ==> 'a' <= l <= 'z' && l as int - 'a' as int == c as int - 'A' as int
    ensures !('A' <= c <= 'Z') ==> l == c
  {
    if 'A' <= c <= 'Z' then (c as int + 32) as char else c
  }

  /** The ASCII lower-case form of a string. */
  function ToLower(s: Bytes): (r: Bytes)
    ensures |r| == |s| && forall i :: 0 <= i < |s| ==> r[i] == LowerByte(s[i])
  {
    seq(|s|, i requires 0 <= i < |s| => LowerByte(s[i]))
  }

  /** Lowering the case keeps hexadecimal digits hexadecimal, makes them
      lower-case, and keeps their value. */
  lemma LowerHex(c: Byte)
    ensures IsHex(LowerByte(c)) <==> IsHex(c)
    ensures IsHex(c) ==> IsLowerHex(LowerByte(c)) && HexValue(LowerByte(c)) == HexValue(c)
  {
  }

  /** A lower-case hexadecimal digit is the digit that renders its own value. */
  lemma LowerHexDigitOfValue(c: Byte)
    requires IsLowerHex(c)
    ensures LowerHexDigit(HexValue(c)) == c
  {
  }
}

=== FILE: uuid.dfy ===
/** UUIDs in the form of section 3 of RFC 4122: sixteen octets, written as 32
    hexadecimal digits in groups of 8-4-4-4-12 separated by hyphens. */
module Uuid {
  import opened Wrappers
  import opened Text

  /** A UUID: sixteen octets. */
  type UUID = b: seq<Octet> | |b| == 16 witness seq(16, i => 0)

  /** Every byte of `s` is a hexadecimal digit; with `lowerOnly`, a
      lower-case one. */
  predicate HexRun(s: Bytes, lowerOnly: bool) {
    forall i :: 0 <= i < |s| ==> if lowerOnly then IsLowerHex(s[i]) else IsHex(s[i])
  }

  /** The 36-byte hyphenated form: 8-4-4-4-12 hexadecimal digits. */
  predicate IsUuidText(s: Bytes, lowerOnly: bool) {
    && |s| == 36
    && s[8] == '-' && s[13] == '-' && s[18] == '-' && s[23] == '-'
    && HexRun(s[..8], lowerOnly) && HexRun(s[9..13], lowerOnly)
    && HexRun(s[14..18], lowerOnly) && HexRun(s[19..23], lowerOnly)
    && HexRun(s[24..], lowerOnly)
  }

  /** The 32 hexadecimal digits of a hyphenated form, hyphens removed. */
  function HexDigits(s: Bytes): (h: Bytes)
    requires |s| == 36
    ensures |h| == 32
  {
    s[..8] + s[9..13] + s[14..18] + s[19..23] + s[24..]
  }

  /** Two lower-case hexadecimal digits per octet, high nibble first. */
  function HexString(bs: seq<Octet>): (s: Bytes)
    ensures |s| == 2 * |bs| && HexRun(s, true)
  {
    if bs == [] then []
    else [LowerHexDigit(bs[0] / 16), LowerHexDigit(bs[0] % 16)] + HexString(bs[1..])
  }

  /** Reads hexadecimal digits of either case two at a time, as octets. */
  function Unhex(s: Bytes): (r: Option<seq<Octet>>)
    requires |s| % 2 == 0
    decreases |s|
  {
    if s == [] then Some([])
    else if !IsHex(s[0]) || !IsHex(s[1]) then None
    else match Unhex(s[2..])
      case None => None
      case Some(rest) => Some([16 * HexValue(s[0]) + HexValue(s[1])] + rest)
  }

  /** Joins the five digit groups with hyphens. */
  function Hyphenate(a: Bytes, b: Bytes, c: Bytes, d: Bytes, e: Bytes): (s: Bytes)
    requires |a| == 8 && |b| == 4 && |c| == 4 && |d| == 4 && |e| == 12
    ensures |s| == 36 && s[8] == '-' && s[13] == '-' && s[18] == '-' && s[23] == '-'
    ensures s[..8] == a && s[9..13] == b && s[14..18] == c && s[19..23] == d && s[24..] == e
  {
    a + "-" + b + "-" + c + "-" + d + "-" + e
  }

  /** The canonical string of a UUID (`uuid.UUID.String`): lower-case and
      hyphenated. */
  function Format(u: UUID): (s: Bytes)
    ensures IsUuidText(s, true)
    ensures HexDigits(s) == HexString(u)
  {
    HexStringAppend(u[..4], u[4..6]);
    HexStringAppend(u[..4] + u[4..6], u[6..8]);
    HexStringAppend(u[..4] + u[4..6] + u[6..8], u[8..10]);
    HexStringAppend(u[..4] + u[4..6] + u[6..8] + u[8..10], u[10..]);
    assert u[..4] + u[4..6] + u[6..8] + u[8..10] + u[10..] == u;
    Hyphenate(HexString(u[..4]), HexString(u[4..6]), HexString(u[6..8]),
              HexString(u[8..10]), HexString(u[10..]))
  }

  /** `uuid.Parse` on its 36-byte hyphenated form: hexadecimal digits of
      either case at the 32 digit positions, hyphens at the other four. */
  function Parse(s: Bytes): (r: Option<UUID>)
    ensures r.Some? <==> IsUuidText(s, false)
  {
    if |s| != 36 || s[8] != '-' || s[13] != '-' || s[18] != '-' || s[23] != '-' then None
    else
      HexDigitsRun(s);
      UnhexLength(HexDigits(s));
      match Unhex(HexDigits(s))
      case None => None
      case Some(b) => Some(b)
  }

  lemma {:induction false} HexStringAppend(a: seq<Octet>, b: seq<Octet>)
    ensures HexString(a + b) == HexString(a) + HexString(b)
    decreases |a|
  {
    if a != [] {
      assert (a + b)[1..] == a[1..] + b;
      HexStringAppend(a[1..], b);
    } else {
      assert a + b == b;
    }
  }

  /** Unhex succeeds exactly on hexadecimal runs, one octet per digit pair. */
  lemma {:induction false} UnhexLength(s: Bytes)
    requires |s| % 2 == 0
    ensures Unhex(s).Some? <==> HexRun(s, false)
    ensures Unhex(s).Some? ==> |Unhex(s).value| == |s| / 2
    decreases |s|
  {
    if s != [] {
      UnhexLength(s[2..]);
      if HexRun(s[2..], false) && IsHex(s[0]) && IsHex(s[1]) {
        assert forall i :: 2 <= i < |s| ==> s[i] == s[2..][i - 2];
      }
    }
  }

  /** A hyphenated form is valid exactly when its hyphen-free digits are a
      hexadecimal run. */
  lemma HexDigitsRun(s: Bytes)
    requires |s| == 36
    ensures IsUuidText(s, false) <==>
            (s[8] == '-' && s[13] == '-' && s[18] == '-' && s[23] == '-' && HexRun(HexDigits(s), false))
  {
    var h := HexDigits(s);
    assert h[..8] == s[..8];
    assert h[8..12] == s[9..13];
    assert h[12..16] == s[14..18];
    assert h[16..20] == s[19..23];
    assert h[20..] == s[24..];
  }

  /** Reading the hexadecimal string of some octets gives the octets back. */
  lemma {:induction false} UnhexHexString(bs: seq<Octet>)
    ensures Unhex(HexString(bs)) == Some(bs)
    decreases |bs|
  {
    if bs != [] {
      var s := HexString(bs);
      assert s[2..] == HexString(bs[1..]);
      assert HexValue(s[0]) == bs[0] / 16 && HexValue(s[1]) == bs[0] % 16;
      assert 16 * HexValue(s[0]) + HexValue(s[1]) == bs[0];
      assert bs == [bs[0]] + bs[1..];
      UnhexHexString(bs[1..]);
    }
  }

  /** A lower-case hexadecimal run is the hexadecimal string of what it
      reads as. */
  lemma {:induction false} HexStringUnhex(s: Bytes)
    requires |s| % 2 == 0 && HexRun(s, true)
    ensures Unhex(s).Some? && HexString(Unhex(s).value) == s
    decreases |s|
  {
    if s != [] {
      assert HexRun(s[2..], true);
      HexStringUnhex(s[2..]);
      LowerHexDigitOfValue(s[0]);
      LowerHexDigitOfValue(s[1]);
      var v := 16 * HexValue(s[0]) + HexValue(s[1]);
      assert v / 16 == HexValue(s[0]) && v % 16 == HexValue(s[1]);
      assert s == [s[0], s[1]] + s[2..];
    }
  }

  /** Parsing the canonical string of a UUID gives the UUID back. */
  lemma ParseFormat(u: UUID)
    ensures Parse(Format(u)) == Some(u)
  {
    UnhexHexString(u);
  }

  /** Every lower-case hyphenated string parses, and it is the canonical
      string of the UUID it parses to. */
  lemma FormatParse(s: Bytes)
    requires IsUuidText(s, true)
    ensures Parse(s).Some? && Format(Parse(s).value) == s
  {
    HexDigitsRun(s);
    assert HexRun(HexDigits(s), true) by {
      var h := HexDigits(s);
      assert h[..8] == s[..8];
      assert h[8..12] == s[9..13];
      assert h[12..16] == s[14..18];
      assert h[16..20] == s[19..23];
      assert h[20..] == s[24..];
      assert forall i :: 0 <= i < 8 ==> h[i] == s[..8][i];
      assert forall i :: 8 <= i < 12 ==> h[i] == s[9..13][i - 8];
      assert forall i :: 12 <= i < 16 ==> h[i] == s[14..18][i - 12];
      assert forall i :: 16 <= i < 20 ==> h[i] == s[19..23][i - 16];
      assert forall i :: 20 <= i < 32 ==> h[i] == s[24..][i - 20];
    }
    HexStringUnhex(HexDigits(s));
    var t := Format(Parse(s).value);
    SameDigitsSameText(t, s);
  }

  /** Two hyphenated forms with the same digits are equal. */
  lemma SameDigitsSameText(a: Bytes, b: Bytes)
    requires IsUuidText(a, false) && IsUuidText(b, false)
    requires HexDigits(a) == HexDigits(b)
    ensures a == b
  {
    var h := HexDigits(a);
    assert a[..8] == h[..8] == b[..8];
    assert a[9..13] == h[8..12] == b[9..13];
    assert a[14..18] == h[12..16] == b[14..18];
    assert a[19..23] == h[16..20] == b[19..23];
    assert a[24..] == h[20..] == b[24..];
    var ha := Hyphenate(a[..8], a[9..13], a[14..18], a[19..23], a[24..]);
    assert forall i :: 0 <= i < 36 ==> a[i] == ha[i];
    assert ha == Hyphenate(b[..8], b[9..13], b[14..18], b[19..23], b[24..]);
    assert forall i :: 0 <= i < 36 ==> b[i] == ha[i];
  }

  /** Unhex reads a string and its lower-case form alike. */
  lemma {:induction false} UnhexToLower(s: Bytes)
    requires |s| % 2 == 0
    ensures Unhex(ToLower(s)) == Unhex(s)
    decreases |s|
  {
    if s != [] {
      var l := ToLower(s);
      assert l[2..] == ToLower(s[2..]);
      LowerHex(s[0]);
      LowerHex(s[1]);
      UnhexToLower(s[2..]);
    }
  }

  /** `uuid.Parse` reads hexadecimal digits of either case alike: a serial
      number parses to the same UUID as its lower-case form, and that form is
      the UUID's canonical text. */
  lemma ParseAnyCase(s: Bytes)
    requires Parse(s).Some?
    ensures Parse(ToLower(s)) == Parse(s)
    ensures Format(Parse(s).value) == ToLower(s)
  {
    var l := ToLower(s);
    assert HexDigits(l) == ToLower(HexDigits(s));
    UnhexToLower(HexDigits(s));
    assert IsUuidText(l, true) by {
      forall x: Bytes | HexRun(x, false) ensures HexRun(ToLower(x), true) {
        forall i | 0 <= i < |x| ensures IsLowerHex(ToLower(x)[i]) {
          LowerHex(x[i]);
        }
      }
      assert l[..8] == ToLower(s[..8]);
      assert l[9..13] == ToLower(s[9..13]);
      assert l[14..18] == ToLower(s[14..18]);
      assert l[19..23] == ToLower(s[19..23]);
      assert l[24..] == ToLower(s[24..]);
    }
    FormatParse(l);
  }
}

=== FILE: wrappers.dfy ===
/** An optional value and a value-or-error result. */
module Wrappers {

  datatype Option<+T> = None | Some(value: T)

  datatype Result<+T, +E> = Ok(value: T) | Err(error: E)
}
